=== FILE: README.md ===
# BookShop authorization and purchase model

A Dafny model of the rule-bearing core of a small library-catalog backend
(an ASP.NET Core Web API over Entity Framework): how a `User` record turns
into the role claims of its access token, how stacked `[Authorize(Roles = ...)]`
attributes decide who reaches an endpoint, the account actions of
`AuthController` (register, login, promote to admin), and the catalog rules
of `BooksController` (search by name, update, delete, and the purchase
transaction that decrements stock and appends an archive record).

The model is functional. The database is an immutable `Store` of three
sequences (users, books, archive) kept in stored order, because the source
picks "the first" matching row. Every action is a pure function from the
store and its inputs to an `Outcome`: an HTTP-style `Response` and the store
as persisted afterwards. Inputs the source takes from its environment are
parameters: the clock (`now`, in ticks), the token identifier (`jti`, from
`Guid.NewGuid()`), the keys the database assigns (`newId`), and the caller's
claims (`principal`, None for an anonymous caller).

Modules, leaf first:

- `Wrappers`: `Option` and `Response`.
- `Numbers`: C# `int` (`Int32`), unchecked wrap-around (`Wrap32`) and the
  decimal rendering of `int.ToString()` with its inverse `ParseInt`.
- `Users`: the `User` record, its defaults, and body binding with
  `[Required]` and `[JsonIgnore]`.
- `Policy`: role names, the attribute semantics (AND across attributes, OR
  within one), and each endpoint's attributes.
- `Tokens`: claim issuance (`GenerateJwtToken`), validation, `FindFirstValue`.
- `Data`: the store, first-match lookup, filtering, and the authorization gate.
- `Auth`, `Books`: the two controllers' actions and gated endpoints.
- `Access`: what each kind of user may do, combining claims and policy.

Behaviour reproduced as written, not corrected:

- The purchase endpoint stacks `[Authorize(Roles = "User")]` and
  `[Authorize(Roles = "IsSuperAdmin")]`, so a caller needs both roles. A
  token carries "User" only when the user is not an admin, so only users with
  `IsSuperAdmin` set and `IsAdmin` clear can purchase
  (`Access.PurchaseOnlyForNonAdminSuperAdmins`). Promoting such a user to
  admin takes purchasing away from tokens issued afterwards
  (`Access.PromotionEndsPurchasing`); a token issued earlier still passes
  until it expires (`Access.PromotionKeepsEarlierTokens`).
- Purchase does not reject a non-positive quantity, and nothing keeps
  `Count >= 0`. A negative quantity passes the stock check and raises the stock. Because
  C# subtraction is unchecked, it can also wrap the count to a negative
  value (`Books.NegativeQuantityWraps`).
- When the caller has no `NameIdentifier` claim, purchase answers 401 after
  decrementing the in-memory entity. The save is never reached, so the
  persisted store is unchanged.
- Nothing makes usernames unique. Login takes the first user whose username
  and password both match.
- `IsSuperAdmin` does not imply `IsAdmin`. All four flag combinations are
  valid and give four distinct role sets.

## Model

| member | source | states |
|---|---|---|
| Numbers.Wrap32 | Controllers/BookController.cs:146 | unchecked `int` subtraction: values in range are kept, others are reduced into range modulo 2^32 |
| Numbers.IntToString | Controllers/AuthController.cs:73 | the rendering of `Id.ToString()`: a leading '-' exactly for negative ids, then decimal digits with no leading zero except for 0 itself |
| Numbers.NatToStringRoundTrip | Controllers/AuthController.cs:73 | the digits written for a natural number read back as that number |
| Numbers.IntToStringRoundTrip | Controllers/AuthController.cs:73 | the `NameIdentifier` rendering of any id parses back to the id, sign included |
| Numbers.IntToStringInjective | Controllers/AuthController.cs:73 | two ids have the same rendering exactly when they are equal |
| Users.NewUser | Models/User.cs:4-17 | a newly constructed User has both role flags false and keeps the id, username and password given |
| Users.Bind | Models/User.cs:8-17 | a body binds exactly when username and password are present and not blank; the bound user has both flags false whatever the body says |
| Users.BindIgnoresRoleFlags | Models/User.cs:14-17 | role flags sent in the body have no effect on binding |
| Users.MissingCredentialRejected | Models/User.cs:8-12 | a body without a username or without a password is invalid input |
| Users.FlagsIndependent | Models/User.cs:15-17 | all four combinations of the two role flags are representable |
| Policy.Requirements | Controllers/BookController.cs:68-131 | the role attributes per endpoint, each naming one role: "Admin" exactly on create, update and delete; "IsSuperAdmin" exactly on purchase and on promotion (AuthController.cs:23); "User" exactly on purchase; none on register, login and the reads |
| Policy.Authorize | Controllers/BookController.cs:129-131 | anonymous callers are challenged at any attributed endpoint; an authenticated caller passes exactly when every attribute is satisfied |
| Policy.AndAcrossAttributes | Controllers/BookController.cs:130-131 | stacking attributes is conjunction: passing `a + b` is passing `a` and passing `b` |
| Policy.OrWithinAttribute | Controllers/BookController.cs:130 | the roles listed in one attribute are alternatives: satisfying `x + y` is satisfying `x` or `y` |
| Policy.SingleRoleAttributesNeedAll | Controllers/BookController.cs:130-131 | single-role attributes admit a caller exactly when it holds every named role |
| Policy.MoreRolesNeverHurt | Controllers/BookController.cs:129-131 | adding roles never turns an admitted caller into a denied one |
| Policy.PurchaseNeedsBothRoles | Controllers/BookController.cs:129-131 | purchase admits exactly callers holding both "User" and "IsSuperAdmin" |
| Policy.AssignAdminNeedsSuperAdmin | Controllers/AuthController.cs:22-23 | promotion admits exactly callers holding "IsSuperAdmin"; a caller with only "Admin" is forbidden |
| Policy.AnonymousCallers | Controllers/BookController.cs:52-69 | an anonymous caller reaches exactly the endpoints without a role attribute |
| Tokens.Issue | Controllers/AuthController.cs:64-98 | the token carries the configured issuer, audience and key, and expires one configured lifetime after issue |
| Tokens.FirstValue | Controllers/BookController.cs:148 | the value of the first claim of a type, or None exactly when no claim has that type |
| Tokens.Validate | Program.cs:54-63 | a token is accepted exactly when key, issuer and audience match and the instant is at most expiry plus the five-minute default skew; it yields the claims as issued (inbound claim mapping switched off) |
| Tokens.InboundClaims | Program.cs:51-52 | the default inbound map renames every `sub` claim to `NameIdentifier`, keeping order, values and every other claim |
| Tokens.ValidateAsDeployed | Program.cs:51-64 | the handler as configured accepts exactly the tokens `Validate` accepts and yields the mapped claims |
| Tokens.InboundKeepsRoles | Program.cs:51-52 | the inbound mapping keeps the role set of the claims |
| Tokens.MappedIdentifierIsUsername | Controllers/AuthController.cs:71-73 | after the inbound mapping, the first `NameIdentifier` of an issued token is the username, not the id |
| Tokens.IssuedRoles | Controllers/AuthController.cs:76-87 | "Admin" iff IsAdmin, "User" iff not IsAdmin, "IsSuperAdmin" iff IsSuperAdmin, and no other role |
| Tokens.SuperAdminWithoutAdminFlag | Controllers/AuthController.cs:76-87 | a superadmin who is not an admin gets exactly {User, IsSuperAdmin} |
| Tokens.RolesDetermineFlags | Controllers/AuthController.cs:76-87 | equal role sets imply equal flags: the four flag combinations give four role sets |
| Tokens.IssuedIdentity | Controllers/AuthController.cs:69-74 | the subject is the username and the first NameIdentifier is the decimal id, which parses back to the id |
| Tokens.PasswordNotInToken | Controllers/AuthController.cs:64-98 | the token does not depend on the password |
| Tokens.IssuedTokenValidity | Controllers/AuthController.cs:89-95 | an issued token validates, with or without the inbound mapping, exactly until issue time plus lifetime plus the five-minute skew |
| Data.FirstIndex | Controllers/BookController.cs:134 | `FirstOrDefault`: the least index satisfying the predicate, or None exactly when none does |
| Data.Filter | Controllers/BookController.cs:55-57 | `Where`: keeps exactly the elements satisfying the predicate, never more than the input |
| Data.FilterAppend | Controllers/BookController.cs:55-57 | filtering distributes over concatenation, so kept rows stay in store order |
| Data.FilterKeepsAll | Controllers/BookController.cs:55-57 | filtering a sequence whose elements all pass returns it unchanged |
| Data.FilterRemovesOne | Controllers/BookController.cs:123 | filtering out exactly one position is removing that position |
| Data.Guard | Program.cs:82-83 | a denied request answers 401 or 403 and stores nothing; an admitted one runs the action |
| Auth.RegisterUser | Controllers/AuthController.cs:39-45 | appends one user under the assigned key with IsAdmin forced false; earlier users, books and archive are unchanged |
| Auth.Register | Controllers/AuthController.cs:38-45 | an invalid body is 400 with nothing stored; a valid one is registered |
| Auth.RegisteredUserHasNoRoles | Controllers/AuthController.cs:39-43 | a registered user has both flags false and the sent credentials, whatever the body's flags |
| Auth.RegisterKeepsKeysUnique | Controllers/AuthController.cs:42-43 | registration under a fresh key keeps user keys unique |
| Auth.Login | Controllers/AuthController.cs:48-61 | 401 iff no stored user matches both username and password; otherwise the first match's token and IsAdmin flag |
| Auth.AssignAdmin | Controllers/AuthController.cs:24-36 | 200 exactly when some user has the key, and then that user's IsAdmin is set and saved; otherwise 404 with the store unchanged |
| Auth.AssignAdminChangesOnlyTarget | Controllers/AuthController.cs:26-33 | under unique keys only the target's IsAdmin changes; all other fields, users, books and archive stay the same |
| Auth.AssignAdminIdempotent | Controllers/AuthController.cs:32-33 | promoting twice stores the same as promoting once |
| Auth.AssignAdminEndpoint | Controllers/AuthController.cs:22-36 | anonymous callers get 401, callers without "IsSuperAdmin" get 403 with nothing stored, superadmins reach the action |
| Books.Contains | Controllers/BookController.cs:56 | ordinal `string.Contains`: true exactly when the query occurs at some position of the name |
| Books.Search | Controllers/BookController.cs:53-65 | 404 iff no name contains the query; otherwise exactly the books whose name contains it |
| Books.SearchKeepsStoreOrder | Controllers/BookController.cs:55-57 | the result lists the matches in store order |
| Books.EmptyQueryFindsAll | Controllers/BookController.cs:56 | the empty query matches every book |
| Books.PostBook | Controllers/BookController.cs:70-76 | the book is appended under the assigned key and returned; users and archive are unchanged |
| Books.PostBookKeepsKeysUnique | Controllers/BookController.cs:72-73 | posting under a fresh key keeps book keys unique |
| Books.PutBook | Controllers/BookController.cs:80-110 | 204 exactly when the route id equals the body's id and some row has that key, and then the keyed row is replaced by the body; id mismatch is 400 and a missing key 404, both with nothing stored |
| Books.PutBookKeepsKeysUnique | Controllers/BookController.cs:80-92 | an update keeps book keys unique |
| Books.PutBookThenFind | Controllers/BookController.cs:80-92 | after a 204 update, looking the key up finds exactly the body |
| Books.DeleteBook | Controllers/BookController.cs:115-127 | 204 exactly when some row has the key, and then the keyed row is removed; otherwise 404 with nothing stored |
| Books.DeleteKeepsOthers | Controllers/BookController.cs:117-124 | under unique keys, after a delete the books are exactly the others, in order |
| Books.Snapshot | Controllers/BookController.cs:154-162 | the archive record of a sale copies the book's name, price and author and takes the requested quantity, the sale instant and the caller's id claim |
| Books.FirstNamed | Controllers/BookController.cs:134 | the first book whose name equals the requested one exactly |
| Books.PurchaseBook | Controllers/BookController.cs:132-168 | 404 iff no book has the name, 400 iff the first such book has less stock than asked, 401 iff otherwise no NameIdentifier claim; every failure stores nothing |
| Books.PurchaseSuccess | Controllers/BookController.cs:146-165 | on success the first named book's count drops by the quantity (mod 2^32), other books are unchanged, one archive record with the book's fields, quantity, instant and id claim is appended |
| Books.NonNegativeQuantityKeepsStock | Controllers/BookController.cs:141-146 | for a non-negative quantity the decrement is exact and the count stays non-negative |
| Books.PurchaseKeepsCountsNonNegative | Controllers/BookController.cs:141-146 | non-negative counts stay non-negative under purchases of non-negative quantities |
| Books.NegativeQuantityRaisesStock | Controllers/BookController.cs:141-146 | a negative quantity is accepted and raises the stock while the sum fits in an `int` |
| Books.NegativeQuantityWraps | Controllers/BookController.cs:146 | buying -1 copies of a book at the largest `int` stores the smallest `int` |
| Books.PostBookEndpoint | Controllers/BookController.cs:68-70 | without "Admin" the request fails and stores nothing; with it the action runs |
| Books.PutBookEndpoint | Controllers/BookController.cs:78-80 | without "Admin" the request fails and stores nothing; with it the action runs |
| Books.DeleteBookEndpoint | Controllers/BookController.cs:113-115 | without "Admin" the request fails and stores nothing; with it the action runs |
| Books.PurchaseEndpoint | Controllers/BookController.cs:129-132 | without both "User" and "IsSuperAdmin" the request fails and stores nothing; with both the purchase runs on the caller's claims |
| Books.AdminOnly | Controllers/BookController.cs:69 | the admin endpoints admit an authenticated caller exactly when it holds "Admin" |
| Access.PurchaseOnlyForNonAdminSuperAdmins | Controllers/BookController.cs:130-131 | a token admits purchase exactly when its user has IsSuperAdmin and not IsAdmin |
| Access.AssignAdminOnlyForSuperAdmins | Controllers/AuthController.cs:23 | a token admits promotion exactly when its user has IsSuperAdmin |
| Access.BookAdministrationOnlyForAdmins | Controllers/BookController.cs:69 | a token admits create, update and delete exactly when its user has IsAdmin |
| Access.AdministrationExcludesPurchase | Controllers/BookController.cs:129-131 | no token admits both purchase and any of create, update or delete |
| Access.RegisteredUserIsForbiddenEverywhereGated | Controllers/AuthController.cs:41 | a freshly registered user is forbidden at every role-gated endpoint |
| Access.PromotionEndsPurchasing | Controllers/AuthController.cs:32 | after promotion, the user's new tokens are forbidden to purchase |
| Access.PromotionKeepsEarlierTokens | Controllers/AuthController.cs:32 | a token issued to a non-admin superadmin before promotion is still admitted to purchase afterwards |
| Access.PurchaseWithIssuedToken | Controllers/BookController.cs:148-161 | with inbound claim mapping switched off, a purchase with a token issued to a user succeeds only for a non-admin superadmin, and the archive's user id parses back to that user's key |
| Access.DeployedPurchaseRecordsUsername | Controllers/BookController.cs:148-161 | with the default inbound mapping, a successful purchase records the buyer's username as the archive's user id |
| Access.DeployedArchiveExample | Controllers/BookController.cs:148-161 | user 7 "alice" buying one copy is archived under "alice", which does not parse to 7 |
| Access.LoginThenPurchase | Controllers/BookController.cs:148-161 | with inbound claim mapping switched off, a purchase made with the claims of a login token succeeds only for a non-admin superadmin, and the archive's user id parses back to that user's key |

## Findings

| source | as written | input that shows it | evidently intended | confidence | as-written member | corrected member |
|---|---|---|---|---|---|---|
| Controllers/BookController.cs:148 | `FindFirstValue(ClaimTypes.NameIdentifier)` reads the first `NameIdentifier` claim; the bearer handler's default inbound map renames the token's `sub` (the username, listed first) to `NameIdentifier`, so the archive stores the username | user Id 7, Username "alice", superadmin and not admin, buys one copy: the archived `UserId` is "alice" | the archived `UserId` is "7", the id the token's own `NameIdentifier` claim carries | medium, not executed | Access.DeployedPurchaseRecordsUsername, Access.DeployedArchiveExample | Access.PurchaseWithIssuedToken |

The corrected reading is what the handler does with `MapInboundClaims = false`
(`Tokens.Validate`); the rest of the model uses it.

## Left out

- JWT signing and the compact serialization (`WriteToken`) are library code. The signature is modelled as the identity of the signing key.
- Tokens.Validate: does not model the whole-second rounding of `exp`; the expiry is compared at tick precision, with the handler's default five-minute clock skew added.
- Tokens.Issue: the expiry adds `Jwt:ExpiryMinutes` through `double.Parse` and `DateTime.Now.AddMinutes`; the model takes the lifetime as integer ticks and the clock as a parameter.
- The inbound claim-type mapping is modelled only for the `sub` claim, the one the controllers read through `NameIdentifier` (`Tokens.InboundClaims`); the other standard claim renamings do not touch any claim type the model reads.
- Numbers.IntToString: renders a negative number with '-', as the invariant culture does; `Id.ToString()` uses the current culture's negative sign.
- The `jti` is a parameter standing for `Guid.NewGuid()`.
- String comparisons and `Contains` are ordinal, as the C# reads. Entity Framework runs them in SQL under the database collation, which may ignore case, and SQL Server's `=` ignores trailing spaces, so a login with password "pw " would match a stored "pw". Row order is the stored sequence order.
- Register and PostBook take the database-generated key as a parameter. A body that names an explicit key is not modelled.
- Body validation covers `[Required]` only, with the blank test of `char.IsWhiteSpace` written out. Malformed JSON and other validation errors are not modelled.
- The `Book`, `ArchivedBook`, `PurchaseRequest` and `BookDto` classes are modelled only by the fields the controller reads. `Price` is a `real` that is only copied. The archive's own key is omitted.
- PutBook: a concurrency conflict on a row that still exists rethrows. Only the sequential reading is modelled, where a missing key answers 404.
- Concurrency: every action is one atomic step. The check-then-act race in purchase, between the stock check and the save, is outside a sequential model.
- GetBooks, GetBook and GetBooksForUsers only read and return rows. They appear only in the policy table, as endpoints open to anonymous callers.
- Response messages, status payloads and `Console.WriteLine` are not modelled. Program.cs wiring (CORS, Swagger, dependency injection) and the `IsAdmin` column default in Data/LibraryDbContext.cs are also left out; `Users.NewUser` already gives that default.

=== FILE: access.dfy ===
/** What the issued claims let each kind of user do: the policy of each
    endpoint combined with the claim derivation of the token service. */
module Access {
  import opened Wrappers
  import opened Numbers
  import opened Users
  import opened Policy
  import opened Tokens
  import opened Data
  import opened Auth
  import opened Books

  /** The decision for a caller holding a token issued to `u`. */
  function DecisionFor(cfg: JwtConfig, u: User, jti: string, issued: int, e: Endpoint): Decision {
    Authorize(Some(RolesOf(Issue(cfg, u, jti, issued).claims)), Requirements(e))
  }

  /** The purchase endpoint admits exactly the superadmins who are not
      admins: an admin's token lacks "User", a plain user's lacks
      "IsSuperAdmin". */
  lemma PurchaseOnlyForNonAdminSuperAdmins(cfg: JwtConfig, u: User, jti: string, issued: int)
    ensures DecisionFor(cfg, u, jti, issued, Endpoint.PurchaseBook) == Allow <==> !u.isAdmin && u.isSuperAdmin
  {
    IssuedRoles(cfg, u, jti, issued);
    PurchaseNeedsBothRoles(RolesOf(Issue(cfg, u, jti, issued).claims));
  }

  /** Promotion is open exactly to superadmins, whatever their admin flag. */
  lemma AssignAdminOnlyForSuperAdmins(cfg: JwtConfig, u: User, jti: string, issued: int)
    ensures DecisionFor(cfg, u, jti, issued, Endpoint.AssignAdmin) == Allow <==> u.isSuperAdmin
  {
    IssuedRoles(cfg, u, jti, issued);
    AssignAdminNeedsSuperAdmin(RolesOf(Issue(cfg, u, jti, issued).claims));
  }

  /** Creating, updating and deleting books is open exactly to admins. */
  lemma BookAdministrationOnlyForAdmins(cfg: JwtConfig, u: User, jti: string, issued: int, e: Endpoint)
    requires e.PostBook? || e.PutBook? || e.DeleteBook?
    ensures DecisionFor(cfg, u, jti, issued, e) == Allow <==> u.isAdmin
  {
    IssuedRoles(cfg, u, jti, issued);
    AdminOnly(Some(Issue(cfg, u, jti, issued).claims), e);
  }

  /** No user can both administer books and purchase them: no token admits
      both a create, update or delete and a purchase. */
  lemma AdministrationExcludesPurchase(cfg: JwtConfig, u: User, jti: string, issued: int, e: Endpoint)
    requires e.PostBook? || e.PutBook? || e.DeleteBook?
    ensures !(DecisionFor(cfg, u, jti, issued, e) == Allow
              && DecisionFor(cfg, u, jti, issued, Endpoint.PurchaseBook) == Allow)
  {
    BookAdministrationOnlyForAdmins(cfg, u, jti, issued, e);
    PurchaseOnlyForNonAdminSuperAdmins(cfg, u, jti, issued);
  }

  /** A freshly registered user may call none of the role-gated endpoints:
      every one of them answers 403. */
  lemma RegisteredUserIsForbiddenEverywhereGated(
    db: Store, body: UserBody, newId: Int32, cfg: JwtConfig, jti: string, issued: int, e: Endpoint)
    requires Bind(body).Some?
    requires 0 < |Requirements(e)|
    ensures var u := Auth.Register(db, body, newId).db.users[|db.users|];
      DecisionFor(cfg, u, jti, issued, e) == Forbid
  {
    var u := Auth.Register(db, body, newId).db.users[|db.users|];
    RegisteredUserHasNoRoles(db, body, newId);
    PurchaseOnlyForNonAdminSuperAdmins(cfg, u, jti, issued);
    AssignAdminOnlyForSuperAdmins(cfg, u, jti, issued);
    if e.PostBook? || e.PutBook? || e.DeleteBook? {
      BookAdministrationOnlyForAdmins(cfg, u, jti, issued, e);
    }
  }

  /** Promoting a superadmin to admin takes away purchasing from the tokens
      issued afterwards. */
  lemma PromotionEndsPurchasing(db: Store, userId: Int32, i: nat, cfg: JwtConfig, jti: string, issued: int)
    requires UniqueUserIds(db.users)
    requires i < |db.users| && db.users[i].id == userId
    ensures var promoted := Auth.AssignAdmin(db, userId).db.users[i];
      DecisionFor(cfg, promoted, jti, issued, Endpoint.PurchaseBook) == Forbid
  {
  }

  /** A purchase made with the claims of a token issued to `u`, read with
      inbound claim mapping switched off, succeeds only when `u` is a
      superadmin without the admin flag, and the new archive record's user
      id reads back as `u`'s key. This is the corrected reading of the
      buyer's id; `DeployedPurchaseRecordsUsername` is the deployed one. */
  lemma PurchaseWithIssuedToken(
    db: Store, cfg: JwtConfig, u: User, jti: string, issued: int, req: PurchaseRequest, now: int)
    requires PurchaseEndpoint(db, Some(Issue(cfg, u, jti, issued).claims), req, now).response.Ok?
    ensures !u.isAdmin && u.isSuperAdmin
    ensures var archive := PurchaseEndpoint(db, Some(Issue(cfg, u, jti, issued).claims), req, now).db.archive;
      && |archive| == |db.archive| + 1
      && ParseInt(archive[|db.archive|].userId) == Some(u.id)
  {
    var claims := Issue(cfg, u, jti, issued).claims;
    IssuedRoles(cfg, u, jti, issued);
    PurchaseNeedsBothRoles(RolesOf(claims));
    assert PurchaseEndpoint(db, Some(claims), req, now) == Books.PurchaseBook(db, req, claims, now);
    PurchaseSuccess(db, req, claims, now);
    IssuedIdentity(cfg, u, jti, issued);
  }

  /** Promotion revokes nothing: roles are fixed when a token is issued, so
      a token issued to a non-admin superadmin before promotion still
      reaches the purchase action afterwards. */
  lemma PromotionKeepsEarlierTokens(
    db: Store, userId: Int32, i: nat, cfg: JwtConfig, jti: string, issued: int, req: PurchaseRequest, now: int)
    requires i < |db.users| && db.users[i].id == userId
    requires !db.users[i].isAdmin && db.users[i].isSuperAdmin
    ensures var claims := Issue(cfg, db.users[i], jti, issued).claims;
      var promoted := Auth.AssignAdmin(db, userId).db;
      PurchaseEndpoint(promoted, Some(claims), req, now) == Books.PurchaseBook(promoted, req, claims, now)
  {
    var claims := Issue(cfg, db.users[i], jti, issued).claims;
    IssuedRoles(cfg, db.users[i], jti, issued);
    PurchaseNeedsBothRoles(RolesOf(claims));
  }

  /** As deployed, with the handler's inbound claim mapping, a purchase made
      with a token issued to `u` records `u`'s username, not its key, as the
      buyer's id. */
  lemma DeployedPurchaseRecordsUsername(
    db: Store, cfg: JwtConfig, u: User, jti: string, issued: int, req: PurchaseRequest, now: int)
    requires PurchaseEndpoint(db, Some(InboundClaims(Issue(cfg, u, jti, issued).claims)), req, now).response.Ok?
    ensures !u.isAdmin && u.isSuperAdmin
    ensures var archive := PurchaseEndpoint(db, Some(InboundClaims(Issue(cfg, u, jti, issued).claims)), req, now).db.archive;
      && |archive| == |db.archive| + 1
      && archive[|db.archive|].userId == u.username
  {
    var issuedClaims := Issue(cfg, u, jti, issued).claims;
    var claims := InboundClaims(issuedClaims);
    InboundKeepsRoles(issuedClaims);
    IssuedRoles(cfg, u, jti, issued);
    PurchaseNeedsBothRoles(RolesOf(claims));
    assert PurchaseEndpoint(db, Some(claims), req, now) == Books.PurchaseBook(db, req, claims, now);
    PurchaseSuccess(db, req, claims, now);
    MappedIdentifierIsUsername(cfg, u, jti, issued);
  }

  /** One sale as deployed: user 7, "alice", a superadmin without the admin
      flag, buys one copy; the archive records "alice", which does not read
      back as key 7. */
  lemma DeployedArchiveExample()
    ensures var u := User(7, "alice", "pw", false, true);
      var db := Store([u], [Book(1, "Dune", 10.0, "Herbert", 3)], []);
      var cfg := JwtConfig("k", "iss", "aud", 600_000_000);
      var principal := ValidateAsDeployed(cfg, Issue(cfg, u, "j", 0), 0);
      var r := PurchaseEndpoint(db, principal, PurchaseRequest("Dune", 1), 0);
      && principal.Some?
      && r.response.Ok?
      && r.db.archive[0].userId == "alice"
      && ParseInt(r.db.archive[0].userId) != Some(u.id)
  {
    var u := User(7, "alice", "pw", false, true);
    var db := Store([u], [Book(1, "Dune", 10.0, "Herbert", 3)], []);
    var cfg := JwtConfig("k", "iss", "aud", 600_000_000);
    var issuedClaims := Issue(cfg, u, "j", 0).claims;
    var claims := InboundClaims(issuedClaims);
    var req := PurchaseRequest("Dune", 1);
    InboundKeepsRoles(issuedClaims);
    IssuedRoles(cfg, u, "j", 0);
    PurchaseNeedsBothRoles(RolesOf(claims));
    MappedIdentifierIsUsername(cfg, u, "j", 0);
    assert FirstNamed(db.books, "Dune") == Some(0);
    assert PurchaseEndpoint(db, Some(claims), req, 0) == Books.PurchaseBook(db, req, claims, 0);
    DeployedPurchaseRecordsUsername(db, cfg, u, "j", 0, req, 0);
    assert !IsDigit("alice"[0]);
  }

  /** Login, then purchase with the claims of the token it returned, read
      with inbound claim mapping switched off. The token passes both role
      attributes and the purchase action succeeds, which is the endpoint
      answering 200: the user who logged in is the first credential match,
      and the purchase is recorded under that user's key. */
  lemma LoginThenPurchase(
    db: Store, body: UserBody, cfg: JwtConfig, jti: string, issued: int,
    reply: LoginReply, claims: seq<Claim>, req: PurchaseRequest, now: int)
    requires Auth.Login(db, body, cfg, jti, issued) == Ok(reply)
    requires Validate(cfg, reply.token, now) == Some(claims)
    requires UserRole in RolesOf(claims) && SuperAdminRole in RolesOf(claims)
    requires Books.PurchaseBook(db, req, claims, now).response.Ok?
    ensures var archive := PurchaseEndpoint(db, Some(claims), req, now).db.archive;
      exists i :: (
        && 0 <= i < |db.users|
        && Matches(db.users[i], body.username.value, body.password.value)
        && (forall j :: 0 <= j < i ==> !Matches(db.users[j], body.username.value, body.password.value))
        && !db.users[i].isAdmin && db.users[i].isSuperAdmin
        && |archive| == |db.archive| + 1
        && ParseInt(archive[|db.archive|].userId) == Some(db.users[i].id))
  {
    var i :| && 0 <= i < |db.users| && Matches(db.users[i], body.username.value, body.password.value)
             && (forall j :: 0 <= j < i ==> !Matches(db.users[j], body.username.value, body.password.value))
             && reply == LoginReply(Issue(cfg, db.users[i], jti, issued), db.users[i].isAdmin);
    PurchaseWithIssuedToken(db, cfg, db.users[i], jti, issued, req, now);
  }
}

=== FILE: auth.dfy ===
/** The actions of AuthController: registration, login and promotion. */
module Auth {
  import opened Wrappers
  import opened Numbers
  import opened Users
  import opened Policy
  import opened Tokens
  import opened Data

  /** What a successful login returns: the token and the user's admin flag. */
  datatype LoginReply = LoginReply(token: Token, isAdmin: bool)

  /** `Register` on an already bound user: the admin flag is forced off and
      the user is appended under the key the database assigns (`newId`).
      The superadmin flag is stored as bound. */
  function RegisterUser(db: Store, u: User, newId: Int32): (r: Outcome<()>)
    ensures r.response == Ok(())
    ensures |r.db.users| == |db.users| + 1 && r.db.users[..|db.users|] == db.users
    ensures var added := r.db.users[|db.users|];
      && added == u.(id := newId, isAdmin := false)
    ensures r.db.books == db.books && r.db.archive == db.archive
  {
    Outcome(Ok(()), db.(users := db.users + [u.(id := newId, isAdmin := false)]))
  }

  /** The register endpoint: a body that fails validation is answered 400
      before the action runs; otherwise the bound user is registered. */
  function Register(db: Store, body: UserBody, newId: Int32): (r: Outcome<()>)
    ensures Bind(body).None? <==> r == Outcome(BadRequest, db)
    ensures Bind(body).Some? ==> r == RegisterUser(db, Bind(body).value, newId)
  {
    match Bind(body)
    case None => Outcome(BadRequest, db)
    case Some(u) => RegisterUser(db, u, newId)
  }

  /** Whatever the body says, a registered user starts with both role flags
      off, and keeps the username and password that were sent. */
  lemma RegisteredUserHasNoRoles(db: Store, body: UserBody, newId: Int32)
    requires Bind(body).Some?
    ensures var r := Register(db, body, newId);
      && |r.db.users| == |db.users| + 1
      && r.db.users[..|db.users|] == db.users
      && r.db.users[|db.users|] == User(newId, body.username.value, body.password.value, false, false)
  {
  }

  /** Registration keeps keys unique when the assigned key is fresh. */
  lemma RegisterKeepsKeysUnique(db: Store, body: UserBody, newId: Int32)
    requires UniqueUserIds(db.users)
    requires forall i :: 0 <= i < |db.users| ==> db.users[i].id != newId
    ensures UniqueUserIds(Register(db, body, newId).db.users)
  {
    var users := Register(db, body, newId).db.users;
    if Bind(body).Some? {
      assert forall k :: 0 <= k < |db.users| ==> users[k] == db.users[k];
      assert users[|db.users|].id == newId;
    }
  }

  predicate Matches(u: User, username: string, password: string) {
    u.username == username && u.password == password
  }

  /** `Login`: the first stored user whose username and password both equal
      the ones sent gets a token (issued at `now` with identifier `jti`)
      and its admin flag; no match is 401. */
  function Login(db: Store, body: UserBody, cfg: JwtConfig, jti: string, now: int): (r: Response<LoginReply>)
    ensures Bind(body).None? ==> r == BadRequest
    ensures Bind(body).Some? ==>
      var name := body.username.value;
      var pass := body.password.value;
      && (r == Unauthorized <==> forall i :: 0 <= i < |db.users| ==> !Matches(db.users[i], name, pass))
      && (r != Unauthorized ==> r.Ok? && exists i :: (
            && 0 <= i < |db.users| && Matches(db.users[i], name, pass)
            && (forall j :: 0 <= j < i ==> !Matches(db.users[j], name, pass))
            && r.value == LoginReply(Issue(cfg, db.users[i], jti, now), db.users[i].isAdmin)))
  {
    match Bind(body)
    case None => BadRequest
    case Some(u) =>
      match FirstIndex(db.users, (x: User) => Matches(x, u.username, u.password))
      case None => Unauthorized
      case Some(i) => Ok(LoginReply(Issue(cfg, db.users[i], jti, now), db.users[i].isAdmin))
  }

  /** `AssignAdmin` once authorized: `FindAsync` by key, then set the admin
      flag and save. */
  function AssignAdmin(db: Store, userId: Int32): (r: Outcome<()>)
    ensures (forall i :: 0 <= i < |db.users| ==> db.users[i].id != userId) <==> r == Outcome(NotFound, db)
    ensures r.response.Ok? ==> exists i :: (
      && 0 <= i < |db.users| && db.users[i].id == userId
      && r.db == db.(users := db.users[i := db.users[i].(isAdmin := true)]))
    ensures r.response.Ok? <==> exists i :: 0 <= i < |db.users| && db.users[i].id == userId
    ensures r.response.Ok? || r.response == NotFound
  {
    match FirstIndex(db.users, (x: User) => x.id == userId)
    case None => Outcome(NotFound, db)
    case Some(i) => Outcome(Ok(()), db.(users := db.users[i := db.users[i].(isAdmin := true)]))
  }

  /** Promotion touches only the admin flag of the user with that key:
      every other field and every other user stay as they were. */
  lemma AssignAdminChangesOnlyTarget(db: Store, userId: Int32)
    requires UniqueUserIds(db.users)
    ensures var r := AssignAdmin(db, userId);
      && |r.db.users| == |db.users|
      && r.db.books == db.books && r.db.archive == db.archive
      && forall i :: 0 <= i < |db.users| ==>
           if db.users[i].id == userId then r.db.users[i] == db.users[i].(isAdmin := true)
           else r.db.users[i] == db.users[i]
  {
  }

  /** Promoting twice stores the same as promoting once. */
  lemma AssignAdminIdempotent(db: Store, userId: Int32)
    ensures AssignAdmin(AssignAdmin(db, userId).db, userId).db == AssignAdmin(db, userId).db
  {
    var p := (x: User) => x.id == userId;
    var once := AssignAdmin(db, userId).db;
    match FirstIndex(db.users, p)
    case None =>
    case Some(i) =>
      assert once.users[i] == db.users[i].(isAdmin := true);
      assert FirstIndex(once.users, p) == Some(i) by {
        assert forall j :: 0 <= j < |once.users| && j != i ==> once.users[j] == db.users[j];
      }
      assert once.users[i := once.users[i].(isAdmin := true)] == once.users;
  }

  /** The `assign-admin` endpoint behind its `[Authorize]` attribute. */
  function AssignAdminEndpoint(db: Store, principal: Option<seq<Claim>>, userId: Int32): (r: Outcome<()>)
    ensures principal.Some? && SuperAdminRole !in RolesOf(principal.value) ==> r == Outcome(Forbidden, db)
    ensures principal.None? ==> r == Outcome(Unauthorized, db)
    ensures principal.Some? && SuperAdminRole in RolesOf(principal.value) ==> r == AssignAdmin(db, userId)
  {
    AssignAdminNeedsSuperAdmin(RolesOf(ClaimsOf(principal)));
    Guard(principal, Endpoint.AssignAdmin, db, AssignAdmin(db, userId))
  }
}

=== FILE: books.dfy ===
/** The actions of BooksController that carry a rule: search by name, the
    admin create/update/delete actions, and purchase. */
module Books {
  import opened Wrappers
  import opened Numbers
  import opened Policy
  import opened Tokens
  import opened Data

  /** `q` occurs in `s` starting at position `i`. */
  predicate OccursAt(s: string, q: string, i: nat) {
    i + |q| <= |s| && s[i..i + |q|] == q
  }

  /** Ordinal `string.Contains`: some position of `s` starts a copy of `q`. */
  function Contains(s: string, q: string): (r: bool)
    ensures r <==> exists i: nat :: OccursAt(s, q, i)
    decreases |s|
  {
    if q <= s then
      assert OccursAt(s, q, 0);
      true
    else if |s| == 0 then
      false
    else
      var rest := Contains(s[1..], q);
      if rest then
        ghost var k: nat :| OccursAt(s[1..], q, k);
        assert s[k + 1..k + 1 + |q|] == s[1..][k..k + |q|];
        assert OccursAt(s, q, k + 1);
        true
      else
        assert forall i: nat :: OccursAt(s, q, i) ==> i > 0 && OccursAt(s[1..], q, i - 1) by {
          forall i: nat | OccursAt(s, q, i)
            ensures i > 0 && OccursAt(s[1..], q, i - 1)
          {
            PrefixOccurrence(s, q);
            assert s[1..][i - 1..i - 1 + |q|] == s[i..i + |q|];
          }
        }
        false
  }

  /** An occurrence at position 0 is a prefix. */
  lemma PrefixOccurrence(s: string, q: string)
    ensures OccursAt(s, q, 0) <==> q <= s
  {
  }

  predicate NameContains(b: Book, name: string) {
    Contains(b.name, name)
  }

  /** `GetBooksByName`: the books whose name contains `name`, in store
      order, or 404 when there are none. */
  function Search(db: Store, name: string): (r: Response<seq<Book>>)
    ensures r == NotFound <==> forall i :: 0 <= i < |db.books| ==> !NameContains(db.books[i], name)
    ensures r.Ok? ==> 0 < |r.value|
    ensures r.Ok? ==> forall i :: 0 <= i < |r.value| ==> r.value[i] in db.books && NameContains(r.value[i], name)
    ensures r.Ok? ==> forall i :: 0 <= i < |db.books| && NameContains(db.books[i], name) ==> db.books[i] in r.value
    ensures r == NotFound || r.Ok?
  {
    var found := Filter(db.books, (b: Book) => NameContains(b, name));
    if |found| == 0 then NotFound
    else
      assert found[0] in db.books && NameContains(found[0], name);
      Ok(found)
  }

  /** Search keeps the store's order: over books `a` followed by books `b`,
      the matches in `a` come first. */
  lemma SearchKeepsStoreOrder(db: Store, a: seq<Book>, b: seq<Book>, name: string)
    requires db.books == a + b
    requires Search(db, name).Ok?
    ensures Search(db, name).value ==
      Filter(a, (x: Book) => NameContains(x, name)) + Filter(b, (x: Book) => NameContains(x, name))
  {
    FilterAppend(a, b, (x: Book) => NameContains(x, name));
  }

  /** The empty query is contained in every name, so it finds every book.
      The route `search/{name}` never passes an empty segment, so this
      describes the action, not a request a client can make. */
  lemma EmptyQueryFindsAll(db: Store)
    requires 0 < |db.books|
    ensures Search(db, "") == Ok(db.books)
  {
    var p := (x: Book) => NameContains(x, "");
    forall i | 0 <= i < |db.books|
      ensures p(db.books[i])
    {
      assert OccursAt(db.books[i].name, "", 0);
    }
    FilterKeepsAll(db.books, p);
  }

  /** `PostBook`: the book is stored under the key the database assigns. */
  function PostBook(db: Store, book: Book, newId: Int32): (r: Outcome<Book>)
    ensures r.response == Created(book.(id := newId))
    ensures r.db.books == db.books + [book.(id := newId)]
    ensures r.db.users == db.users && r.db.archive == db.archive
  {
    var stored := book.(id := newId);
    Outcome(Created(stored), db.(books := db.books + [stored]))
  }

  /** `PutBook`: a route id that differs from the body's id is 400. Otherwise
      the row with that key is overwritten with the body; when there is no
      such row the update touches nothing, the save reports a concurrency
      conflict, and the action answers 404. */
  function PutBook(db: Store, id: Int32, book: Book): (r: Outcome<()>)
    ensures id != book.id <==> r == Outcome(BadRequest, db)
    ensures id == book.id && (forall i :: 0 <= i < |db.books| ==> db.books[i].id != id) <==> r == Outcome(NotFound, db)
    ensures r.response == NoContent ==> exists i :: (
      && 0 <= i < |db.books| && db.books[i].id == id
      && r.db == db.(books := db.books[i := book]))
    ensures r.response == NoContent <==> id == book.id && exists i :: 0 <= i < |db.books| && db.books[i].id == id
    ensures r.response == BadRequest || r.response == NotFound || r.response == NoContent
  {
    if id != book.id then Outcome(BadRequest, db)
    else
      match FirstIndex(db.books, (b: Book) => b.id == id)
      case None => Outcome(NotFound, db)
      case Some(i) => Outcome(NoContent, db.(books := db.books[i := book]))
  }

  /** Creating a book under a fresh key keeps book keys unique. */
  lemma PostBookKeepsKeysUnique(db: Store, book: Book, newId: Int32)
    requires UniqueBookIds(db.books)
    requires forall i :: 0 <= i < |db.books| ==> db.books[i].id != newId
    ensures UniqueBookIds(PostBook(db, book, newId).db.books)
  {
    var books := PostBook(db, book, newId).db.books;
    assert forall k :: 0 <= k < |db.books| ==> books[k] == db.books[k];
    assert books[|db.books|].id == newId;
  }

  /** An update writes the body under its own key, so keys stay unique. */
  lemma PutBookKeepsKeysUnique(db: Store, id: Int32, book: Book)
    requires UniqueBookIds(db.books)
    ensures UniqueBookIds(PutBook(db, id, book).db.books)
  {
    var r := PutBook(db, id, book);
    if r.response == NoContent {
      var i :| 0 <= i < |db.books| && db.books[i].id == id && r.db == db.(books := db.books[i := book]);
      var books := r.db.books;
      assert forall k :: 0 <= k < |books| ==> books[k].id == db.books[k].id;
    }
  }

  /** After a successful update, looking the key up again (`FindAsync`, as
      `GetBook` does) finds exactly the body that was sent. */
  lemma PutBookThenFind(db: Store, id: Int32, book: Book)
    requires UniqueBookIds(db.books)
    requires PutBook(db, id, book).response == NoContent
    ensures var books := PutBook(db, id, book).db.books;
      var found := FirstIndex(books, (b: Book) => b.id == id);
      found.Some? && books[found.value] == book
  {
    var r := PutBook(db, id, book);
    var i :| 0 <= i < |db.books| && db.books[i].id == id && r.db == db.(books := db.books[i := book]);
    var books := r.db.books;
    var found := FirstIndex(books, (b: Book) => b.id == id);
    assert books[i].id == id;
    assert forall k :: 0 <= k < |books| && k != i ==> books[k] == db.books[k];
  }

  /** `DeleteBook`: `FindAsync` by key, then remove that row. */
  function DeleteBook(db: Store, id: Int32): (r: Outcome<()>)
    ensures (forall i :: 0 <= i < |db.books| ==> db.books[i].id != id) <==> r == Outcome(NotFound, db)
    ensures r.response == NoContent ==> exists i :: (
      && 0 <= i < |db.books| && db.books[i].id == id
      && r.db == db.(books := db.books[..i] + db.books[i + 1..]))
    ensures r.response == NoContent <==> exists i :: 0 <= i < |db.books| && db.books[i].id == id
    ensures r.response == NotFound || r.response == NoContent
  {
    match FirstIndex(db.books, (b: Book) => b.id == id)
    case None => Outcome(NotFound, db)
    case Some(i) => Outcome(NoContent, db.(books := db.books[..i] + db.books[i + 1..]))
  }

  /** With unique keys, deleting a present key leaves exactly the other
      books, in their order. */
  lemma DeleteKeepsOthers(db: Store, id: Int32)
    requires UniqueBookIds(db.books)
    ensures DeleteBook(db, id).db.books == Filter(db.books, (b: Book) => b.id != id)
  {
    var p := (b: Book) => b.id != id;
    match FirstIndex(db.books, (b: Book) => b.id == id)
    case None =>
      FilterKeepsAll(db.books, p);
    case Some(i) =>
      FilterRemovesOne(db.books, i, p);
  }

  /** The body of a purchase request. */
  datatype PurchaseRequest = PurchaseRequest(bookName: string, quantity: Int32)

  /** The first book with exactly the requested name. */
  function FirstNamed(books: seq<Book>, name: string): (r: Option<nat>)
    ensures r.None? <==> forall i :: 0 <= i < |books| ==> books[i].name != name
    ensures r.Some? ==> r.value < |books| && books[r.value].name == name
    ensures r.Some? ==> forall j :: 0 <= j < r.value ==> books[j].name != name
  {
    FirstIndex(books, (b: Book) => b.name == name)
  }

  /** The archive record of a sale: the book's fields, the requested
      quantity, the sale instant and the caller's id claim. */
  function Snapshot(book: Book, quantity: Int32, now: int, userId: string): (a: ArchivedBook)
    ensures a.name == book.name && a.price == book.price && a.author == book.author
    ensures a.quantity == quantity && a.archivedDate == now && a.userId == userId
  {
    ArchivedBook(book.name, book.price, book.author, quantity, now, userId)
  }

  /** `PurchaseBook` once authorized, with the caller's claims and the
      current instant as inputs. The stock check, the unchecked 32-bit
      decrement, and the archive append happen in source order; the
      `NameIdentifier` lookup comes after the decrement, but an early return
      there never reaches the save, so the store is left unchanged. */
  function PurchaseBook(db: Store, req: PurchaseRequest, claims: seq<Claim>, now: int): (r: Outcome<()>)
    ensures FirstNamed(db.books, req.bookName).None? <==> r == Outcome(NotFound, db)
    ensures r.response == BadRequest <==>
      FirstNamed(db.books, req.bookName).Some? && db.books[FirstNamed(db.books, req.bookName).value].count < req.quantity
    ensures r.response == Unauthorized <==>
      && FirstNamed(db.books, req.bookName).Some?
      && req.quantity <= db.books[FirstNamed(db.books, req.bookName).value].count
      && FirstValue(claims, NameIdentifier).None?
    ensures !r.response.Ok? ==> r.db == db
    ensures r.response.Ok? || r.response == NotFound || r.response == BadRequest || r.response == Unauthorized
    ensures r.db.users == db.users
  {
    match FirstNamed(db.books, req.bookName)
    case None => Outcome(NotFound, db)
    case Some(i) =>
      var book := db.books[i];
      if book.count < req.quantity then Outcome(BadRequest, db)
      else
        var sold := book.(count := Wrap32(book.count - req.quantity));
        match FirstValue(claims, NameIdentifier)
        case None => Outcome(Unauthorized, db)
        case Some(userId) =>
          Outcome(Ok(()), db.(books := db.books[i := sold],
                              archive := db.archive + [Snapshot(sold, req.quantity, now, userId)]))
  }

  /** A successful purchase lowers the count of the first book with that
      name by the quantity (modulo 2^32), leaves every other book alone,
      and appends exactly one archive record copied from the book, with the
      requested quantity, the instant and the caller's id claim. */
  lemma PurchaseSuccess(db: Store, req: PurchaseRequest, claims: seq<Claim>, now: int)
    requires PurchaseBook(db, req, claims, now).response.Ok?
    ensures var i := FirstNamed(db.books, req.bookName).value;
      var r := PurchaseBook(db, req, claims, now).db;
      var book := db.books[i];
      && req.quantity <= book.count
      && |r.books| == |db.books|
      && r.books[i] == book.(count := Wrap32(book.count - req.quantity))
      && (forall j :: 0 <= j < |db.books| && j != i ==> r.books[j] == db.books[j])
      && r.archive == db.archive + [ArchivedBook(book.name, book.price, book.author, req.quantity, now,
                                                  FirstValue(claims, NameIdentifier).value)]
  {
  }

  /** For a non-negative quantity the decrement is exact and the count
      stays non-negative. */
  lemma NonNegativeQuantityKeepsStock(db: Store, req: PurchaseRequest, claims: seq<Claim>, now: int)
    requires 0 <= req.quantity
    requires PurchaseBook(db, req, claims, now).response.Ok?
    ensures var i := FirstNamed(db.books, req.bookName).value;
      var c := PurchaseBook(db, req, claims, now).db.books[i].count;
      c == db.books[i].count - req.quantity && 0 <= c
  {
  }

  /** Counts that start non-negative stay non-negative under purchases of
      non-negative quantities. */
  lemma PurchaseKeepsCountsNonNegative(db: Store, req: PurchaseRequest, claims: seq<Claim>, now: int)
    requires 0 <= req.quantity
    requires forall i :: 0 <= i < |db.books| ==> 0 <= db.books[i].count
    ensures var r := PurchaseBook(db, req, claims, now).db;
      forall i :: 0 <= i < |r.books| ==> 0 <= r.books[i].count
  {
  }

  /** A negative quantity is not rejected: while the sum fits in an `int`
      it raises the stock. */
  lemma NegativeQuantityRaisesStock(db: Store, req: PurchaseRequest, claims: seq<Claim>, now: int)
    requires req.quantity < 0
    requires PurchaseBook(db, req, claims, now).response.Ok?
    requires db.books[FirstNamed(db.books, req.bookName).value].count - req.quantity <= MaxInt32
    ensures var i := FirstNamed(db.books, req.bookName).value;
      PurchaseBook(db, req, claims, now).db.books[i].count > db.books[i].count
  {
  }

  /** Past that point the unchecked decrement wraps: buying -1 copies of a
      book whose count is the largest `int` stores the smallest `int`. */
  lemma NegativeQuantityWraps(claims: seq<Claim>, now: int)
    requires FirstValue(claims, NameIdentifier).Some?
    ensures var book := Book(1, "b", 0.0, "a", MaxInt32);
      var db := Store([], [book], []);
      var r := PurchaseBook(db, PurchaseRequest("b", -1), claims, now);
      r.response.Ok? && r.db.books[0].count == MinInt32
  {
  }

  /** The endpoints behind their `[Authorize]` attributes. An anonymous
      caller reaches only `Search`. */
  function PostBookEndpoint(db: Store, principal: Option<seq<Claim>>, book: Book, newId: Int32): (r: Outcome<Book>)
    ensures AdminRole !in RolesOf(ClaimsOf(principal)) ==> r.db == db && !r.response.IsSuccess()
    ensures principal.Some? && AdminRole in RolesOf(principal.value) ==> r == PostBook(db, book, newId)
  {
    AdminOnly(principal, Endpoint.PostBook);
    Guard(principal, Endpoint.PostBook, db, PostBook(db, book, newId))
  }

  function PutBookEndpoint(db: Store, principal: Option<seq<Claim>>, id: Int32, book: Book): (r: Outcome<()>)
    ensures AdminRole !in RolesOf(ClaimsOf(principal)) ==> r.db == db && !r.response.IsSuccess()
    ensures principal.Some? && AdminRole in RolesOf(principal.value) ==> r == PutBook(db, id, book)
  {
    AdminOnly(principal, Endpoint.PutBook);
    Guard(principal, Endpoint.PutBook, db, PutBook(db, id, book))
  }

  function DeleteBookEndpoint(db: Store, principal: Option<seq<Claim>>, id: Int32): (r: Outcome<()>)
    ensures AdminRole !in RolesOf(ClaimsOf(principal)) ==> r.db == db && !r.response.IsSuccess()
    ensures principal.Some? && AdminRole in RolesOf(principal.value) ==> r == DeleteBook(db, id)
  {
    AdminOnly(principal, Endpoint.DeleteBook);
    Guard(principal, Endpoint.DeleteBook, db, DeleteBook(db, id))
  }

  function PurchaseEndpoint(db: Store, principal: Option<seq<Claim>>, req: PurchaseRequest, now: int): (r: Outcome<()>)
    ensures var roles := RolesOf(ClaimsOf(principal));
      !(UserRole in roles && SuperAdminRole in roles) ==> r.db == db && !r.response.IsSuccess()
    ensures var roles := RolesOf(ClaimsOf(principal));
      principal.Some? && UserRole in roles && SuperAdminRole in roles ==> r == PurchaseBook(db, req, principal.value, now)
  {
    PurchaseNeedsBothRoles(RolesOf(ClaimsOf(principal)));
    Guard(principal, Endpoint.PurchaseBook, db, PurchaseBook(db, req, ClaimsOf(principal), now))
  }

  /** The three admin endpoints carry the single attribute "Admin". */
  lemma AdminOnly(principal: Option<seq<Claim>>, e: Endpoint)
    requires e.PostBook? || e.PutBook? || e.DeleteBook?
    ensures principal.Some? ==>
      (Authorize(Some(RolesOf(principal.value)), Requirements(e)) == Allow <==> AdminRole in RolesOf(principal.value))
  {
    if principal.Some? {
      var roles := RolesOf(principal.value);
      var names := [AdminRole];
      assert Requirements(e) == Singletons(names);
      SingleRoleAttributesNeedAll(roles, names);
      assert names[0] == AdminRole;
    }
  }
}

=== FILE: data.dfy ===
/** The persisted store behind `LibraryDbContext`: three tables kept in
    their stored order, since `FirstOrDefault` picks the first row in that
    order. Every operation returns its response together with the store as
    it stands after `SaveChangesAsync` (or unchanged when that is never
    reached). */
module Data {
  import opened Wrappers
  import opened Numbers
  import opened Users
  import opened Policy
  import opened Tokens

  /** `decimal` in the source; prices are only ever copied. */
  type Price = real

  datatype Book = Book(id: Int32, name: string, price: Price, author: string, count: Int32)

  /** A purchase snapshot: the book's fields at the time of sale, the
      quantity bought, the instant, and the buyer's id claim as a string. */
  datatype ArchivedBook = ArchivedBook(
    name: string,
    price: Price,
    author: string,
    quantity: Int32,
    archivedDate: int,
    userId: string)

  datatype Store = Store(users: seq<User>, books: seq<Book>, archive: seq<ArchivedBook>)

  /** A response and the persisted store after the request. */
  datatype Outcome<+T> = Outcome(response: Response<T>, db: Store)

  /** The index of the first element satisfying `p`. */
  function FirstIndex<T>(s: seq<T>, p: T -> bool): (r: Option<nat>)
    ensures r.None? <==> forall i :: 0 <= i < |s| ==> !p(s[i])
    ensures r.Some? ==> r.value < |s| && p(s[r.value])
    ensures r.Some? ==> forall j :: 0 <= j < r.value ==> !p(s[j])
  {
    if |s| == 0 then None
    else if p(s[0]) then Some(0)
    else
      match FirstIndex(s[1..], p)
      case None => None
      case Some(k) => Some(k + 1)
  }

  /** The elements of `s` satisfying `p`, in their order in `s` (`Where`
      followed by `ToListAsync`). */
  function Filter<T>(s: seq<T>, p: T -> bool): (r: seq<T>)
    ensures |r| <= |s|
    ensures forall i :: 0 <= i < |r| ==> r[i] in s && p(r[i])
    ensures forall i :: 0 <= i < |s| && p(s[i]) ==> s[i] in r
  {
    if |s| == 0 then []
    else if p(s[0]) then [s[0]] + Filter(s[1..], p)
    else Filter(s[1..], p)
  }

  /** Filtering distributes over concatenation, so it keeps the order of
      the rows it keeps. */
  lemma {:induction false} FilterAppend<T>(a: seq<T>, b: seq<T>, p: T -> bool)
    ensures Filter(a + b, p) == Filter(a, p) + Filter(b, p)
    decreases |a|
  {
    if |a| == 0 {
      assert a + b == b;
    } else {
      assert (a + b)[0] == a[0];
      assert (a + b)[1..] == a[1..] + b;
      FilterAppend(a[1..], b, p);
    }
  }

  /** Filtering keeps a sequence whose every element passes. */
  lemma {:induction false} FilterKeepsAll<T>(s: seq<T>, p: T -> bool)
    requires forall i :: 0 <= i < |s| ==> p(s[i])
    ensures Filter(s, p) == s
    decreases |s|
  {
    if |s| != 0 {
      FilterKeepsAll(s[1..], p);
    }
  }

  /** Filtering out exactly one position leaves the sequence without it. */
  lemma {:induction false} FilterRemovesOne<T>(s: seq<T>, i: nat, p: T -> bool)
    requires i < |s| && !p(s[i])
    requires forall j :: 0 <= j < |s| && j != i ==> p(s[j])
    ensures Filter(s, p) == s[..i] + s[i + 1..]
    decreases i
  {
    var tail := s[1..];
    assert forall j :: 0 <= j < |tail| ==> tail[j] == s[j + 1];
    if i == 0 {
      FilterKeepsAll(tail, p);
      assert s[..0] + s[1..] == tail;
    } else {
      FilterRemovesOne(tail, i - 1, p);
      assert [s[0]] + (tail[..i - 1] + tail[i..]) == s[..i] + s[i + 1..];
    }
  }

  /** Primary keys are unique within a table. */
  predicate UniqueUserIds(users: seq<User>) {
    forall i, j :: 0 <= i < |users| && 0 <= j < |users| && users[i].id == users[j].id ==> i == j
  }

  predicate UniqueBookIds(books: seq<Book>) {
    forall i, j :: 0 <= i < |books| && 0 <= j < |books| && books[i].id == books[j].id ==> i == j
  }

  /** The authorization middleware in front of an action: the action runs
      only when the endpoint's attributes admit the caller; otherwise the
      caller is challenged (anonymous) or forbidden, and nothing is stored. */
  function Guard<T>(principal: Option<seq<Claim>>, e: Endpoint, db: Store, action: Outcome<T>): (r: Outcome<T>)
    ensures var d := Authorize(if principal.Some? then Some(RolesOf(principal.value)) else None, Requirements(e));
      && (d == Allow ==> r == action)
      && (d == Challenge ==> r == Outcome(Unauthorized, db))
      && (d == Forbid ==> r == Outcome(Forbidden, db))
  {
    var roles := if principal.Some? then Some(RolesOf(principal.value)) else None;
    match Authorize(roles, Requirements(e))
    case Allow => action
    case Challenge => Outcome(Unauthorized, db)
    case Forbid => Outcome(Forbidden, db)
  }

  /** The claims an action reads from `User`; an anonymous caller has none. */
  function ClaimsOf(principal: Option<seq<Claim>>): seq<Claim> {
    if principal.Some? then principal.value else []
  }
}

=== FILE: numbers.dfy ===
/** C# `int` arithmetic and the decimal rendering `int.ToString()` produces. */
module Numbers {
  import opened Wrappers

  const MinInt32: int := -0x8000_0000
  const MaxInt32: int := 0x7FFF_FFFF
  const Modulus32: int := 0x1_0000_0000

  /** A value of C#'s 32-bit `int`. */
  type Int32 = x: int | MinInt32 <= x <= MaxInt32

  /** The result of unchecked 32-bit arithmetic (the C# default): the
      mathematical value reduced into the `int` range modulo 2^32. */
  function Wrap32(x: int): (r: Int32)
    ensures MinInt32 <= x <= MaxInt32 ==> r == x
    ensures (x - r) % Modulus32 == 0
  {
    (x - MinInt32) % Modulus32 + MinInt32
  }

  predicate IsDigit(c: char) {
    '0' <= c <= '9'
  }

  predicate AllDigits(s: string) {
    forall i :: 0 <= i < |s| ==> IsDigit(s[i])
  }

  function DigitChar(d: int): (c: char)
    requires 0 <= d < 10
    ensures IsDigit(c)
  {
    ('0' as int + d) as char
  }

  function DigitValue(c: char): (d: int)
    requires IsDigit(c)
    ensures 0 <= d < 10
  {
    c as int - '0' as int
  }

  /** Decimal digits of a natural number, most significant first, without
      leading zeros. */
  function NatToString(n: nat): (s: string)
    ensures 1 <= |s| && AllDigits(s)
    ensures s[0] == '0' <==> n == 0
    decreases n
  {
    if n < 10 then [DigitChar(n)] else NatToString(n / 10) + [DigitChar(n % 10)]
  }

  /** `int.ToString()` under the invariant culture: a leading '-' for
      negative values, then the decimal digits of the magnitude. */
  function IntToString(n: int): (s: string)
    ensures 1 <= |s|
    ensures s[0] == '-' <==> n < 0
    ensures n < 0 ==> 2 <= |s| && AllDigits(s[1..]) && s[1] != '0'
    ensures 0 <= n ==> AllDigits(s) && (s[0] == '0' <==> n == 0)
  {
    if n < 0 then "-" + NatToString(-n) else NatToString(n)
  }

  /** The value of a string of decimal digits. */
  function DigitsValue(s: string): nat
    requires AllDigits(s)
  {
    if |s| == 0 then 0 else DigitsValue(s[..|s| - 1]) * 10 + DigitValue(s[|s| - 1])
  }

  /** Reads back what `IntToString` writes: an optional '-' followed by at
      least one digit. Anything else is rejected. */
  function ParseInt(s: string): (r: Option<int>)
    ensures r.Some? ==> 1 <= |s|
  {
    if 1 <= |s| && s[0] == '-' then
      if 2 <= |s| && AllDigits(s[1..]) then Some(0 - DigitsValue(s[1..]) as int) else None
    else if 1 <= |s| && AllDigits(s) then Some(DigitsValue(s) as int)
    else None
  }

  lemma {:induction false} NatToStringRoundTrip(n: nat)
    ensures DigitsValue(NatToString(n)) == n
    decreases n
  {
    var s := NatToString(n);
    if n < 10 {
      assert s == [DigitChar(n)];
      assert s[..0] == [];
    } else {
      var prefix := NatToString(n / 10);
      assert s == prefix + [DigitChar(n % 10)];
      assert s[..|s| - 1] == prefix;
      NatToStringRoundTrip(n / 10);
    }
  }

  /** Parsing the rendering of any integer gives that integer back. */
  lemma IntToStringRoundTrip(n: int)
    ensures ParseInt(IntToString(n)) == Some(n)
  {
    var s := IntToString(n);
    if n < 0 {
      assert s[1..] == NatToString(-n);
      NatToStringRoundTrip(-n);
    } else {
      NatToStringRoundTrip(n);
    }
  }

  /** Distinct integers have distinct renderings. */
  lemma IntToStringInjective(a: int, b: int)
    ensures IntToString(a) == IntToString(b) <==> a == b
  {
    IntToStringRoundTrip(a);
    IntToStringRoundTrip(b);
  }
}

=== FILE: policy.dfy ===
/** Role-based authorization as ASP.NET Core evaluates stacked
    `[Authorize(Roles = ...)]` attributes: every attribute must be satisfied
    (AND across attributes), and an attribute is satisfied by holding any one
    of its comma-separated roles (OR within an attribute). */
module Policy {
  import opened Wrappers

  /** The role claim values the token service issues. */
  const AdminRole: string := "Admin"
  const UserRole: string := "User"
  const SuperAdminRole: string := "IsSuperAdmin"

  /** The outcome of the authorization middleware: run the action, challenge
      an anonymous caller (401), or forbid an authenticated one (403). */
  datatype Decision = Allow | Challenge | Forbid

  /** One attribute is satisfied by a role set. An attribute without roles
      (plain `[Authorize]`) asks only for an authenticated caller. */
  predicate Satisfies(roles: set<string>, attr: set<string>) {
    attr == {} || exists r :: r in attr && r in roles
  }

  /** `attrs` holds one role set per `[Authorize]` attribute on the endpoint;
      `principal` is the caller's role set, or None for an anonymous caller. */
  function Authorize(principal: Option<set<string>>, attrs: seq<set<string>>): (d: Decision)
    ensures d == Challenge <==> 0 < |attrs| && principal.None?
    ensures d == Allow <==>
      |attrs| == 0 || (principal.Some? && forall i :: 0 <= i < |attrs| ==> Satisfies(principal.value, attrs[i]))
  {
    if |attrs| == 0 then Allow
    else if principal.None? then Challenge
    else if forall i :: 0 <= i < |attrs| ==> Satisfies(principal.value, attrs[i]) then Allow
    else Forbid
  }

  /** Stacking attributes is conjunction: an authenticated caller passes
      `a + b` exactly when it passes `a` and passes `b`. */
  lemma AndAcrossAttributes(roles: set<string>, a: seq<set<string>>, b: seq<set<string>>)
    ensures Authorize(Some(roles), a + b) == Allow <==>
      Authorize(Some(roles), a) == Allow && Authorize(Some(roles), b) == Allow
  {
    var p := Some(roles);
    if Authorize(p, a) == Allow && Authorize(p, b) == Allow {
      forall i | 0 <= i < |a + b|
        ensures Satisfies(roles, (a + b)[i])
      {
        if i < |a| { assert (a + b)[i] == a[i]; } else { assert (a + b)[i] == b[i - |a|]; }
      }
    }
    if Authorize(p, a + b) == Allow {
      forall i | 0 <= i < |a|
        ensures Satisfies(roles, a[i])
      {
        assert (a + b)[i] == a[i];
      }
      forall i | 0 <= i < |b|
        ensures Satisfies(roles, b[i])
      {
        assert (a + b)[|a| + i] == b[i];
      }
    }
  }

  /** Listing roles in one attribute is disjunction: a caller satisfies the
      attribute `x + y` exactly when it satisfies `x` or satisfies `y`. */
  lemma OrWithinAttribute(roles: set<string>, x: set<string>, y: set<string>)
    requires x != {} && y != {}
    ensures Satisfies(roles, x + y) <==> Satisfies(roles, x) || Satisfies(roles, y)
  {
  }

  /** When every attribute names a single role, the caller must hold all of
      them at once. */
  lemma SingleRoleAttributesNeedAll(roles: set<string>, names: seq<string>)
    ensures Authorize(Some(roles), Singletons(names)) == Allow <==>
      forall i :: 0 <= i < |names| ==> names[i] in roles
  {
  }

  function Singletons(names: seq<string>): (attrs: seq<set<string>>)
    ensures |attrs| == |names|
    ensures forall i :: 0 <= i < |names| ==> attrs[i] == {names[i]}
  {
    seq(|names|, i requires 0 <= i < |names| => {names[i]})
  }

  /** Holding more roles never turns an allowed request into a denied one. */
  lemma MoreRolesNeverHurt(roles: set<string>, more: set<string>, attrs: seq<set<string>>)
    requires roles <= more
    requires Authorize(Some(roles), attrs) == Allow
    ensures Authorize(Some(more), attrs) == Allow
  {
  }

  /** The endpoints of the two controllers. */
  datatype Endpoint =
    | AssignAdmin | Register | Login
    | GetBooks | GetBooksForUsers | GetBook | SearchBooks
    | PostBook | PutBook | DeleteBook | PurchaseBook

  /** The `[Authorize(Roles = ...)]` attributes declared on each endpoint,
      in declaration order. Every attribute names a single role; the
      endpoints of `Register`, `Login` and the four reads carry none. */
  function Requirements(e: Endpoint): (r: seq<set<string>>)
    ensures forall i :: 0 <= i < |r| ==> |r[i]| == 1
    ensures forall i :: 0 <= i < |r| ==> r[i] <= {AdminRole, UserRole, SuperAdminRole}
    ensures |r| == 0 <==> e in {Register, Login, GetBooks, GetBooksForUsers, GetBook, SearchBooks}
    ensures (exists i :: 0 <= i < |r| && AdminRole in r[i]) <==> e in {PostBook, PutBook, DeleteBook}
    ensures (exists i :: 0 <= i < |r| && SuperAdminRole in r[i]) <==> e in {AssignAdmin, PurchaseBook}
    ensures (exists i :: 0 <= i < |r| && UserRole in r[i]) <==> e == PurchaseBook
  {
    match e
    case AssignAdmin =>
      var r := [{SuperAdminRole}];
      assert SuperAdminRole in r[0];
      r
    case PostBook | PutBook | DeleteBook =>
      var r := [{AdminRole}];
      assert AdminRole in r[0];
      r
    case PurchaseBook =>
      var r := [{UserRole}, {SuperAdminRole}];
      assert UserRole in r[0] && SuperAdminRole in r[1];
      r
    case _ => []
  }

  /** The purchase endpoint admits exactly the callers that hold both
      "User" and "IsSuperAdmin"; either one alone is forbidden. */
  lemma PurchaseNeedsBothRoles(roles: set<string>)
    ensures Authorize(Some(roles), Requirements(PurchaseBook)) == Allow <==>
      UserRole in roles && SuperAdminRole in roles
  {
    var names := [UserRole, SuperAdminRole];
    assert Requirements(PurchaseBook) == Singletons(names);
    SingleRoleAttributesNeedAll(roles, names);
    assert names[0] == UserRole && names[1] == SuperAdminRole;
  }

  /** Promotion is forbidden to every authenticated caller without
      "IsSuperAdmin", ordinary admins included. */
  lemma AssignAdminNeedsSuperAdmin(roles: set<string>)
    ensures Authorize(Some(roles), Requirements(AssignAdmin)) == Allow <==> SuperAdminRole in roles
    ensures Authorize(Some({AdminRole}), Requirements(AssignAdmin)) == Forbid
  {
    var names := [SuperAdminRole];
    assert Requirements(AssignAdmin) == Singletons(names);
    SingleRoleAttributesNeedAll(roles, names);
    SingleRoleAttributesNeedAll({AdminRole}, names);
    assert names[0] == SuperAdminRole;
    assert AdminRole != SuperAdminRole;
  }

  /** Every endpoint with a role attribute challenges anonymous callers;
      the others admit them. */
  lemma AnonymousCallers(e: Endpoint)
    ensures Authorize(None, Requirements(e)) == Allow <==>
      !(e.AssignAdmin? || e.PostBook? || e.PutBook? || e.DeleteBook? || e.PurchaseBook?)
  {
  }
}

=== FILE: tokens.dfy ===
/** The access token `GenerateJwtToken` issues and the bearer-token check
    that turns it back into the caller's claims. Signing is abstracted to
    the identity of the key. */
module Tokens {
  import opened Wrappers
  import opened Numbers
  import opened Users
  import opened Policy

  /** The claim types the token carries: registered `sub` and `jti`, and
      the framework's `NameIdentifier` and `Role`. */
  datatype ClaimType = Sub | Jti | NameIdentifier | Role

  datatype Claim = Claim(kind: ClaimType, value: string)

  /** The `Jwt:*` configuration section. `lifetime` is `Jwt:ExpiryMinutes`
      already converted to clock ticks. */
  datatype JwtConfig = JwtConfig(key: string, issuer: string, audience: string, lifetime: int)

  /** An issued token: its claims in issue order, the expiry instant, and the
      key it was signed with standing in for the HMAC signature. */
  datatype Token = Token(
    issuer: string,
    audience: string,
    claims: seq<Claim>,
    expires: int,
    signingKey: string)

  /** The role claim added for a user's admin flag: exactly one of "Admin"
      and "User". */
  function BaseRole(u: User): string {
    if u.isAdmin then AdminRole else UserRole
  }

  /** `GenerateJwtToken`: subject, a fresh `jti` (a parameter here, since it
      comes from `Guid.NewGuid()`), the decimal id, then the role claims.
      `now` is the issuing instant. */
  function Issue(cfg: JwtConfig, u: User, jti: string, now: int): (t: Token)
    ensures t.issuer == cfg.issuer && t.audience == cfg.audience && t.signingKey == cfg.key
    ensures t.expires == now + cfg.lifetime
  {
    var identity := [Claim(Sub, u.username), Claim(Jti, jti), Claim(NameIdentifier, IntToString(u.id))];
    var roles := [Claim(Role, BaseRole(u))] + (if u.isSuperAdmin then [Claim(Role, SuperAdminRole)] else []);
    Token(cfg.issuer, cfg.audience, identity + roles, now + cfg.lifetime, cfg.key)
  }

  /** The role set the authorization middleware sees. */
  function RolesOf(claims: seq<Claim>): set<string> {
    set i | 0 <= i < |claims| && claims[i].kind == Role :: claims[i].value
  }

  /** `FindFirstValue`: the value of the first claim of the given type. */
  function FirstValue(claims: seq<Claim>, kind: ClaimType): (r: Option<string>)
    ensures r.None? <==> forall i :: 0 <= i < |claims| ==> claims[i].kind != kind
    ensures r.Some? ==> exists i :: (0 <= i < |claims| && claims[i] == Claim(kind, r.value)
                                     && forall j :: 0 <= j < i ==> claims[j].kind != kind)
  {
    if |claims| == 0 then None
    else if claims[0].kind == kind then Some(claims[0].value)
    else
      var r := FirstValue(claims[1..], kind);
      if r.Some? then
        ghost var i :| 0 <= i < |claims[1..]| && claims[1..][i] == Claim(kind, r.value)
          && forall j :: 0 <= j < i ==> claims[1..][j].kind != kind;
        assert claims[i + 1] == Claim(kind, r.value);
        r
      else
        r
  }

  /** The bearer handler's default lifetime tolerance: five minutes, in
      100-nanosecond ticks. The application does not change it. */
  const ClockSkew: int := 3_000_000_000

  /** The checks the bearer handler makes: the signing key, issuer and
      audience are the configured ones, and the expiry instant has not
      passed by more than the clock skew. */
  predicate Accepts(cfg: JwtConfig, t: Token, now: int) {
    && t.signingKey == cfg.key && t.issuer == cfg.issuer && t.audience == cfg.audience
    && now <= t.expires + ClockSkew
  }

  /** The handler's default inbound claim-type map, as it touches the claims
      issued here: the registered `sub` claim becomes a `NameIdentifier`
      claim with the same value, in place. Every other claim keeps its
      type and value. */
  function InboundClaims(claims: seq<Claim>): (r: seq<Claim>)
    ensures |r| == |claims|
    ensures forall i :: 0 <= i < |r| ==> r[i].value == claims[i].value
    ensures forall i :: 0 <= i < |r| ==> r[i].kind != Sub
    ensures forall i :: 0 <= i < |r| && claims[i].kind == Sub ==> r[i] == Claim(NameIdentifier, claims[i].value)
    ensures forall i :: 0 <= i < |r| && claims[i].kind != Sub ==> r[i] == claims[i]
  {
    seq(|claims|, i requires 0 <= i < |claims| =>
      if claims[i].kind == Sub then Claim(NameIdentifier, claims[i].value) else claims[i])
  }

  /** Bearer validation with inbound claim mapping switched off: an accepted
      token yields its claims exactly as issued. */
  function Validate(cfg: JwtConfig, t: Token, now: int): (r: Option<seq<Claim>>)
    ensures r.Some? <==> Accepts(cfg, t, now)
    ensures r.Some? ==> r.value == t.claims
  {
    if Accepts(cfg, t, now) then Some(t.claims) else None
  }

  /** Bearer validation as the application configures it, with the default
      inbound claim mapping: an accepted token yields its mapped claims. */
  function ValidateAsDeployed(cfg: JwtConfig, t: Token, now: int): (r: Option<seq<Claim>>)
    ensures r.Some? <==> Accepts(cfg, t, now)
    ensures r.Some? ==> r.value == InboundClaims(t.claims)
  {
    if Accepts(cfg, t, now) then Some(InboundClaims(t.claims)) else None
  }

  /** Mapping leaves the role set alone. */
  lemma InboundKeepsRoles(claims: seq<Claim>)
    ensures RolesOf(InboundClaims(claims)) == RolesOf(claims)
  {
    var mapped := InboundClaims(claims);
    forall i | 0 <= i < |claims|
      ensures mapped[i].kind == Role <==> claims[i].kind == Role
    {
    }
  }

  /** After mapping, the first `NameIdentifier` claim of an issued token is
      the one made from `sub`: the username, not the decimal id. */
  lemma MappedIdentifierIsUsername(cfg: JwtConfig, u: User, jti: string, now: int)
    ensures FirstValue(InboundClaims(Issue(cfg, u, jti, now).claims), NameIdentifier) == Some(u.username)
  {
    var mapped := InboundClaims(Issue(cfg, u, jti, now).claims);
    assert mapped[0] == Claim(NameIdentifier, u.username);
  }

  /** The role set of an issued token: "Admin" exactly when the user is an
      admin, "User" exactly when not, "IsSuperAdmin" exactly when the user
      is a superadmin, and nothing else. */
  lemma IssuedRoles(cfg: JwtConfig, u: User, jti: string, now: int)
    ensures var roles := RolesOf(Issue(cfg, u, jti, now).claims);
      && (AdminRole in roles <==> u.isAdmin)
      && (UserRole in roles <==> !u.isAdmin)
      && (SuperAdminRole in roles <==> u.isSuperAdmin)
      && roles <= {AdminRole, UserRole, SuperAdminRole}
  {
    var claims := Issue(cfg, u, jti, now).claims;
    var roles := RolesOf(claims);
    assert claims[3] == Claim(Role, BaseRole(u));
    assert BaseRole(u) in roles;
    if u.isSuperAdmin {
      assert claims[4] == Claim(Role, SuperAdminRole);
      assert SuperAdminRole in roles;
      assert roles == {BaseRole(u), SuperAdminRole};
    } else {
      assert roles == {BaseRole(u)};
    }
  }

  /** A superadmin who is not an admin carries {User, IsSuperAdmin}. */
  lemma SuperAdminWithoutAdminFlag(cfg: JwtConfig, u: User, jti: string, now: int)
    requires u.isSuperAdmin && !u.isAdmin
    ensures RolesOf(Issue(cfg, u, jti, now).claims) == {UserRole, SuperAdminRole}
  {
    IssuedRoles(cfg, u, jti, now);
  }

  /** The role set determines both flags: no two flag combinations share
      a claim set. */
  lemma RolesDetermineFlags(cfg: JwtConfig, u: User, v: User, jti: string, now: int)
    requires RolesOf(Issue(cfg, u, jti, now).claims) == RolesOf(Issue(cfg, v, jti, now).claims)
    ensures u.isAdmin == v.isAdmin && u.isSuperAdmin == v.isSuperAdmin
  {
    IssuedRoles(cfg, u, jti, now);
    IssuedRoles(cfg, v, jti, now);
  }

  /** The token names its user: the subject is the username and the first
      `NameIdentifier` claim is the decimal id, which parses back to it. */
  lemma IssuedIdentity(cfg: JwtConfig, u: User, jti: string, now: int)
    ensures FirstValue(Issue(cfg, u, jti, now).claims, Sub) == Some(u.username)
    ensures FirstValue(Issue(cfg, u, jti, now).claims, NameIdentifier) == Some(IntToString(u.id))
    ensures ParseInt(IntToString(u.id)) == Some(u.id)
  {
    var claims := Issue(cfg, u, jti, now).claims;
    assert claims[0] == Claim(Sub, u.username);
    assert claims[2] == Claim(NameIdentifier, IntToString(u.id));
    assert claims[0].kind != NameIdentifier && claims[1].kind != NameIdentifier;
    IntToStringRoundTrip(u.id);
  }

  /** The password never reaches the token: users that differ only in
      their password get identical tokens. */
  lemma PasswordNotInToken(cfg: JwtConfig, u: User, password: string, jti: string, now: int)
    ensures Issue(cfg, u.(password := password), jti, now) == Issue(cfg, u, jti, now)
  {
  }

  /** A freshly issued token is accepted by the same configuration, with or
      without claim mapping, exactly until its lifetime and the clock skew
      have both run out. */
  lemma IssuedTokenValidity(cfg: JwtConfig, u: User, jti: string, issued: int, now: int)
    ensures Validate(cfg, Issue(cfg, u, jti, issued), now).Some? <==> now <= issued + cfg.lifetime + ClockSkew
    ensures ValidateAsDeployed(cfg, Issue(cfg, u, jti, issued), now).Some? <==> now <= issued + cfg.lifetime + ClockSkew
  {
  }
}

=== FILE: users.dfy ===
/** The `User` record of Models/User.cs and the way a request body binds to it. */
module Users {
  import opened Wrappers
  import opened Numbers

  /** A stored account. The two role flags are independent booleans: nothing
      ties `isSuperAdmin` to `isAdmin`. */
  datatype User = User(
    id: Int32,
    username: string,
    password: string,
    isAdmin: bool,
    isSuperAdmin: bool)

  /** `new User { Id, Username, Password }`: both role flags take their
      declared initial value. */
  function NewUser(id: Int32, username: string, password: string): (u: User)
    ensures !u.isAdmin && !u.isSuperAdmin
    ensures u.id == id && u.username == username && u.password == password
  {
    User(id, username, password, false, false)
  }

  /** A JSON request body for `User` as the client sent it: every member may
      be absent. The role flags are listed because a client can send them,
      not because binding reads them. */
  datatype UserBody = UserBody(
    username: Option<string>,
    password: Option<string>,
    isAdmin: Option<bool>,
    isSuperAdmin: Option<bool>)

  /** `char.IsWhiteSpace`: the Unicode space, line and paragraph separators
      and the control characters U+0009..U+000D and U+0085. */
  predicate IsWhiteSpace(c: char) {
    || '\U{9}' <= c <= '\U{D}'
    || c == '\U{20}' || c == '\U{85}' || c == '\U{A0}' || c == '\U{1680}'
    || '\U{2000}' <= c <= '\U{200A}'
    || c == '\U{2028}' || c == '\U{2029}' || c == '\U{202F}' || c == '\U{205F}'
    || c == '\U{3000}'
  }

  /** A `[Required]` string member: present and not empty or white space
      only (the attribute's default `AllowEmptyStrings = false`). */
  predicate Required(v: Option<string>) {
    v.Some? && exists i :: 0 <= i < |v.value| && !IsWhiteSpace(v.value[i])
  }

  /** Model binding of a body to `User`. A missing or blank `[Required]`
      member fails validation (the automatic 400 of an API controller); the
      `[JsonIgnore]` flags are never read, so they keep their initial value.
      `Bind` drops a body's `Id`; the database-assigned key is a parameter
      of `Register`. */
  function Bind(b: UserBody): (r: Option<User>)
    ensures r.Some? <==> Required(b.username) && Required(b.password)
    ensures r.Some? ==> r.value.username == b.username.value && r.value.password == b.password.value
    ensures r.Some? ==> !r.value.isAdmin && !r.value.isSuperAdmin
  {
    if Required(b.username) && Required(b.password) then
      Some(NewUser(0, b.username.value, b.password.value))
    else
      None
  }

  /** Whatever role flags a client puts in the body, binding gives the same
      result as if it had sent none. */
  lemma BindIgnoresRoleFlags(b: UserBody, admin: Option<bool>, superAdmin: Option<bool>)
    ensures Bind(b.(isAdmin := admin, isSuperAdmin := superAdmin)) == Bind(b)
  {
  }

  /** A body whose username or password is absent never binds. */
  lemma MissingCredentialRejected(b: UserBody)
    requires b.username.None? || b.password.None?
    ensures Bind(b).None?
  {
  }

  /** The flags are independent: each of the four combinations is a User. */
  lemma FlagsIndependent(admin: bool, superAdmin: bool)
    ensures exists u: User :: u.isAdmin == admin && u.isSuperAdmin == superAdmin
  {
    var u := User(0, "", "", admin, superAdmin);
    assert u.isAdmin == admin && u.isSuperAdmin == superAdmin;
  }
}

=== FILE: wrappers.dfy ===
/** Optional values and HTTP-style responses shared by the controllers. */
module Wrappers {

  /** The conventional Some/None datatype, used where the source has a
      nullable reference (`FirstOrDefault`, `FindAsync`, `FindFirstValue`). */
  datatype Option<+T> = None | Some(value: T)

  /** The action results the controllers return, without their message
      payloads. `Created` is `CreatedAtAction`; `NoContent` is HTTP 204. */
  datatype Response<+T> =
    | Ok(value: T)
    | Created(value: T)
    | NoContent
    | BadRequest
    | Unauthorized
    | Forbidden
    | NotFound
  {
    /** True of the 2xx results. */
    predicate IsSuccess() {
      Ok? || Created? || NoContent?
    }
  }
}
